=== FILE: README.md ===
# door3-pi: the `/members/open` door decision

A Dafny model of the access decision of the door3-pi server. A client posts
`{payload, signature}`. The payload is a JSON string
`{"message": "Open Door3", "timestamp": <ms>}` signed as an Ethereum personal
message. The handler checks the request and recovers the signer. It then
asks the Door3 membership contract for the signer's expiry and pulses the
door's GPIO pin when the membership is still valid.

The handler is modelled as a pure function `DoorOpen.Decide(body, env)`. It
returns the JSON reply and the ordered list of foreign calls made:
`VerifyMessage`, `ReadExpiry(signer)` and `OpenDoor`. The `Environment`
holds the pieces the handler cannot compute itself:

- `parse`: the JSON parser applied to the payload's text; `None` stands for
  a SyntaxError. As in `JSON.parse`, the payload is first converted to a
  string, and that conversion can itself throw a TypeError;
- `recover`: the signer `ethers.utils.verifyMessage` recovers; `None` stands
  for a thrown error;
- `expiryOf`: the contract's `expiry(address)` in seconds; `None` stands for
  a rejected RPC call;
- `clockAtCheck` and `clockAtLookup`: the two `new Date().getTime()`
  readings, one in the freshness check and one inside `hasValidMembership`.

The JavaScript semantics the handler leans on are modelled rather than
assumed:

- ToBoolean, for the `!x` tests;
- property access on the parsed payload, where reading a field of `null`
  throws;
- ToString, where an object with its own `"toString"` key throws a
  TypeError;
- `parseInt` with an undefined radix (section 19.2.5 of ECMA-262): leading
  white space, an optional sign, a `0x` prefix that switches to radix 16,
  the longest digit run, and NaN when that run is empty.

Modules:

- `Optional` (optional.dfy): `Option`.
- `JsValues` (js_values.dfy): JSON values, ToBoolean, property access,
  ToString.
- `ParseInt` (parse_int.dfy): `parseInt`. Its key lemma is the round trip
  `ParseIntString(DecimalString(n) + t) == Int(n)`.
- `Membership` (membership.dfy): `hasValidMembership`.
- `DoorOpen` (door_open.dfy): the handler.
- `DoorOpenProperties` (door_open_properties.dfy): the handler's properties
  over all inputs. These include an independent characterisation
  `Authorized` of when the door opens.

In these places the code does something a reader may not expect:

- A payload that is not JSON, that parses to `null`, or whose string
  conversion throws is not answered with "invalid payload". The exception
  escapes into the async wrapper, which is the `Unhandled` reply here.
- A rejected registry call gets no reply of the handler's own either. It
  escapes the same way.
- A truthy, printable timestamp with no leading digits is not rejected.
  `parseInt` answers NaN and `NaN < fiveMinAgo` is false (see Findings).
- `parseInt` can throw, so the try/catch at index.js:76-81 is not dead. The
  timestamp `{"toString": 1}`, or an array that holds such an object, makes
  ToString throw a TypeError, and the handler answers "invalid payload".
- A membership is valid when `expiry * 1000 == now`. The comparison is
  `expiry*1000 < now ⇒ invalid`, so the boundary millisecond still counts
  as a member.

## Model

| member | source | states |
|---|---|---|
| JsValues.Truthy | index.js:55-62 | A body field or timestamp is falsy exactly when it is undefined, null, false, 0 or the empty string; every array and object is truthy |
| JsValues.ToStringThrowsIffUnprintable | index.js:76-81 | Converting a value to a string throws, always a TypeError, exactly when it is or holds an object with its own "toString" key |
| JsValues.SingletonArrayPrintsAsElement | index.js:85 | A one-element array timestamp whose element is not null or undefined prints as that element, so `[1676776147779]` is as good as the number |
| ParseInt.TrimStart | index.js:85 | parseInt drops exactly the leading white space, keeping the rest of the string |
| ParseInt.DigitRunLength | index.js:85 | parseInt reads the longest digit prefix: every character before it is a digit of the radix and the one after it is not |
| ParseInt.ParseIntValue | index.js:76-81 | parseInt on a timestamp throws exactly when ToString does; otherwise it yields a number or NaN |
| ParseInt.NatDigitsValue | index.js:85 | The decimal digits of a natural number denote that number |
| ParseInt.ParseIntOfNegative | index.js:85 | A minus sign followed by the digits of a positive number reads back as the negated number |
| ParseInt.ParseIntOfDecimal | index.js:85 | Round trip: parseInt reads back every printed integer, also with trailing text that is not a digit and does not form a `0x` prefix |
| ParseInt.ParseIntOfNumber | index.js:85 | A JSON number timestamp parses to itself |
| ParseInt.ParseIntSkipsLeadingWhiteSpace | index.js:85 | Leading white space never changes what parseInt reads |
| ParseInt.NoDigitIsNaN | index.js:76-81 | A string with no decimal digit parses to NaN instead of throwing, so the try/catch does not catch it |
| ParseInt.ParseIntHexPrefix | index.js:85 | After `0x` or `0X` parseInt reads hexadecimal, so a timestamp may be written in hex |
| ParseInt.ParseIntSign | index.js:85 | A leading "-" negates the parsed number and a leading "+" changes nothing, when what follows starts with neither white space nor a sign |
| ParseInt.ParseIntWordExample | index.js:85 | The word "soon" parses to NaN |
| ParseInt.ParseIntBarePrefix | index.js:85 | A `0x` or `0X` prefix followed by no hexadecimal digit parses to NaN rather than to the decimal zero before it |
| Membership.HasValidMembership | index.js:31-38 | Membership is valid exactly when the expiry second is no earlier than the clock reading rounded up to whole seconds |
| Membership.ExpiryBoundary | index.js:34-37 | Valid at exactly expiry*1000 ms and invalid one millisecond later |
| Membership.ZeroExpiryIsInvalid | index.js:34-35 | An expiry of 0, meaning an address never registered, is invalid at every positive clock reading |
| Membership.MembershipMonotone | index.js:31-38 | A later expiry or an earlier clock never turns a valid membership invalid |
| DoorOpen.StalenessGrowsWithClock | index.js:83-88 | A stale timestamp stays stale at every later clock reading; a timestamp exactly 300000 ms old is not stale and one millisecond later it is; NaN is stale at no clock reading |
| DoorOpen.ParsePayload | index.js:64 | `JSON.parse(payload)` throws a TypeError exactly when the payload's string conversion throws, a SyntaxError exactly when the parser rejects the printed text, and otherwise yields what the parser gives for that text |
| DoorOpen.Authorize | index.js:93-111 | Recovery is always the first call. A failed recovery is the only call made. The registry is asked about the recovered signer only. The door opens last, and exactly when the reply is `{validMembership: true}` |
| DoorOpen.Decide | index.js:52-113 | The handler opens the door once when it answers `{validMembership: true}` and never otherwise. It recovers the signer exactly when every earlier check passed |
| DoorOpen.DecideStrict | index.js:83-91 | The corrected handler, which rejects NaN timestamps, still opens the door once exactly on `{validMembership: true}` |
| DoorOpenProperties.CommandReachesTimestampCheck | index.js:63-74 | Once the payload carries the open command, the timestamp checks alone decide whether recovery is reached |
| DoorOpenProperties.MissingPayloadFirst | index.js:55-58 | A falsy payload answers "expect payload in body" whatever the signature, with no foreign call |
| DoorOpenProperties.MissingSignatureSecond | index.js:59-62 | A present payload with a falsy signature answers "expect signature in body" with no foreign call |
| DoorOpenProperties.UnparsablePayloadEscapes | index.js:63-66 | A payload whose text the parser rejects escapes as a SyntaxError, and one that parses to null escapes as the TypeError of reading `null.message`; no foreign call is made |
| DoorOpenProperties.UnprintablePayloadEscapes | index.js:63-64 | A payload whose string conversion throws, such as `{"toString": 1}`, escapes as a TypeError with no foreign call |
| DoorOpenProperties.WrongCommandRejected | index.js:66-69 | Any parsed payload other than null that is not an object whose message is exactly "Open Door3" answers "invalid payload" without recovery or lookup |
| DoorOpenProperties.FalsyTimestampRejected | index.js:71-74 | An absent, null, false, 0 or empty timestamp answers "invalid payload" |
| DoorOpenProperties.UnprintableTimestampRejected | index.js:76-81 | A timestamp whose string conversion throws answers "invalid payload" |
| DoorOpenProperties.StaleTimestampRejected | index.js:83-91 | A truthy timestamp that parses to a number below clock-300000 answers "timestamp too old", whatever the signature and the registry would say |
| DoorOpenProperties.FreshTimestampProceeds | index.js:83-91 | A truthy timestamp that parses to a number exactly 300000 ms old, or to any later one however far in the future, proceeds to recovery |
| DoorOpenProperties.NaNTimestampProceeds | index.js:76-91 | A truthy timestamp that parses to NaN proceeds to recovery at every clock |
| DoorOpenProperties.InvalidSignatureStops | index.js:93-99 | A failed recovery answers "invalid signature" after that single call; the registry is not asked and the door stays shut |
| DoorOpenProperties.MembershipDecides | index.js:101-111 | After recovery, the reply is `validMembership: expiry*1000 >= now` for the recovered signer, and the door opens exactly when it is true |
| DoorOpenProperties.RegistryFailureEscapes | index.js:32 | A rejected registry call escapes as an exception after the lookup, and the door stays shut |
| DoorOpenProperties.TimestampCheckIsAdmitted | index.js:71-91 | The timestamp checks pass exactly when the timestamp is truthy, printable, and, if parseInt reads a number from it, that number is at most five minutes old |
| DoorOpenProperties.CheckRequestPasses | index.js:55-91 | The checks before recovery pass exactly for a request that carries the command with an admitted timestamp |
| DoorOpenProperties.DoorOpensIffAuthorized | index.js:52-113 | The door opens exactly when the request is Authorized, and at most once |
| DoorOpenProperties.FreshMemberOpensDoor | index.js:52-113 | A command stamped now, with a signer whose expiry is an hour ahead, opens the door once and answers `{validMembership: true}` |
| DoorOpenProperties.SoonTimestampNeverStale | index.js:85-88 | As written, a payload stamped "soon" reaches recovery at every clock, so it never goes stale |
| DoorOpenProperties.StrictRejectsNaN | index.js:76-81 | Corrected: a NaN timestamp answers "invalid payload" |
| DoorOpenProperties.StrictOpensOnlyWhenFresh | index.js:83-91 | Corrected: the door opens only for a numeric timestamp at most five minutes before the check |
| DoorOpenProperties.StrictAgreesWithoutNaN | index.js:83-91 | The correction changes no decision for a request without a NaN timestamp |

## Left out

- Express, cors, morgan and body-parser are transport and logging, so they
  are left out. So is `app.listen`.
- HTTP status codes are left out: `.status(400)` runs after `res.json` has
  already sent the reply, so it has no effect.
- `JSON.parse` is a foreign parser. Its result is an input, `parse`.
- `ethers.utils.verifyMessage` is left out because it is ECDSA recovery
  over a keccak hash with EIP-191 prefixing. It is an input, `recover`.
- The RPC provider and the contract binding are network I/O. The expiry is
  an input, `expiryOf`.
- `openDoor` drives a GPIO pin and a 500 ms timer, and it swallows its own
  exception. It never changes the reply, so it is recorded only as the call
  `OpenDoor`.
- `console.log` lines are left out.
- JSON numbers are modelled as integers of magnitude at most 2^53. Every
  such integer is exactly a double and prints as its exact digits.
  Fractions are floating point and are left out. So are larger numbers.
  JSON rounds them to a double. Below 10^21 they print as rounded digits.
  From 10^21 on they print in exponent form, such as "1e+21", where
  parseInt reads only the digits before the "e".
- JavaScript strings are UTF-16 code-unit sequences. The model uses Unicode
  scalar values, so lone surrogates are not represented.
- Property access is modelled only for keys no built-in prototype defines.
  "message" and "timestamp" are such keys.
- The handler calls `parseInt` twice, at index.js:77 and index.js:85. Both
  calls get the same argument and give the same result, so the model calls
  it once.
- ParseInt.ParseIntValue: the parsed integer is not rounded to a double, and
  more than 20 significant digits are not approximated. The only use is
  `< fiveMinAgo`, and a millisecond clock value is an exactly representable
  double, so rounding never changes that comparison.
- Replay protection is absent in the code. Replaying an identical request
  gives the same decision by construction, because `Decide` is a function.

## Findings

| source | as written | input that shows it | evidently intended | confidence | as-written member | corrected member |
|---|---|---|---|---|---|---|
| index.js:76-91 | A truthy timestamp with no digits parses to NaN. `parseInt` does not throw, so the try/catch passes it, and `NaN < fiveMinAgo` is false, so the staleness check passes it too | payload `{"message":"Open Door3","timestamp":"soon"}` with a valid member's signature opens the door at any later time | A non-numeric timestamp answers "invalid payload", so every signed request goes stale five minutes after the time it names | not executed; the behaviour follows from ECMA-262, and the intent is read from the try/catch and the comment at index.js:83 | DoorOpenProperties.SoonTimestampNeverStale | DoorOpen.DecideStrict |

`DoorOpen.Decide` stays the model of the code as written.
`DoorOpen.DecideStrict` is the corrected handler. Three lemmas are proved
about it:

- `StrictRejectsNaN`: it rejects NaN timestamps.
- `StrictOpensOnlyWhenFresh`: it opens the door only for a numeric
  timestamp at most five minutes old.
- `StrictAgreesWithoutNaN`: it agrees with `Decide` on every request
  without a NaN timestamp.

=== FILE: door_open.dfy ===
/** The `/members/open` handler: the short-circuiting pipeline that decides
    whether a signed request opens the door. The foreign pieces it calls —
    `JSON.parse`, `ethers.utils.verifyMessage`, the registry's `expiry` call
    and the two clock reads — are inputs, gathered in an Environment. */
module DoorOpen {
  import opened Optional
  import opened JsValues
  import opened ParseInt
  import opened Membership

  /** The only command the payload may carry. */
  const OPEN_COMMAND: string := "Open Door3"

  /** How old, in milliseconds, a payload timestamp may be: five minutes. */
  const FRESHNESS_WINDOW_MS: int := 5 * 60 * 1000

  const NO_PAYLOAD: string := "expect payload in body"
  const NO_SIGNATURE: string := "expect signature in body"
  const INVALID_PAYLOAD: string := "invalid payload"
  const TOO_OLD: string := "timestamp too old"
  const INVALID_SIGNATURE: string := "invalid signature"

  /** The signer address `verifyMessage` recovers. */
  type Address = string

  /** The two fields of `req.body` the handler reads; a missing field is
      Undefined. */
  datatype RequestBody = RequestBody(payload: JsValue, signature: JsValue)

  /** The foreign collaborators and the clock. `parse` is `JSON.parse` on
      the payload's text and answers None where it throws a SyntaxError,
      `recover` None where `verifyMessage` throws, `expiryOf` None where
      the registry call is rejected. The clock is read twice: once for the
      freshness check, once inside `hasValidMembership`. */
  datatype Environment = Environment(
    parse: string -> Option<JsValue>,
    recover: (JsValue, JsValue) -> Option<Address>,
    expiryOf: Address -> Option<nat>,
    clockAtCheck: int,
    clockAtLookup: int)

  /** Why the handler failed without answering: an exception escaped into
      the async handler wrapper, which hands it to the framework's error
      handler. */
  datatype Fault = Thrown(error: JsError) | RegistryCallFailed

  /** The JSON the handler answers with, or no answer of its own. */
  datatype Reply =
    | Error(message: string)
    | MembershipReply(validMembership: bool)
    | Unhandled(fault: Fault)

  /** The foreign calls with an effect or a cost, in the order made. */
  datatype Call = VerifyMessage | ReadExpiry(signer: Address) | OpenDoor

  datatype Decision = Decision(reply: Reply, calls: seq<Call>)

  /** The outcome of the checks made before any foreign call. */
  datatype Check = Pass | Stop(reply: Reply)

  /** JavaScript `a < b` for a Number that may be NaN: every comparison
      with NaN is false. */
  predicate JsLess(a: IntOrNaN, b: int) {
    a.Int? && a.value < b
  }

  /** The timestamp is older than `fiveMinAgo`. */
  predicate IsStale(t: IntOrNaN, now: int) {
    JsLess(t, now - FRESHNESS_WINDOW_MS)
  }

  /** Staleness only grows with the clock: a stale timestamp stays stale at
      every later reading, one exactly five minutes old is not yet stale and
      one millisecond later it is, and NaN is stale at no clock reading. */
  lemma StalenessGrowsWithClock(t: IntOrNaN, now: int, later: int)
    requires now <= later
    ensures IsStale(t, now) ==> IsStale(t, later)
    ensures t.Int? ==> !IsStale(t, t.value + FRESHNESS_WINDOW_MS)
    ensures t.Int? ==> IsStale(t, t.value + FRESHNESS_WINDOW_MS + 1)
    ensures !IsStale(NaN, now) && !IsStale(NaN, later)
  {
  }

  /** `JSON.parse(payload)`: ToString on the payload first, which throws a
      TypeError exactly on the values HoldsUnprintable describes, then the
      parser on the text, which throws a SyntaxError where it fails. */
  function ParsePayload(payload: JsValue, parse: string -> Option<JsValue>): (r: Completion<JsValue>)
    ensures HoldsUnprintable(payload) <==> r == Throw(TypeError)
    ensures ToJsString(payload).Normal? ==> (r == Throw(SyntaxError) <==> parse(ToJsString(payload).value).None?)
    ensures r.Normal? ==> ToJsString(payload).Normal? && parse(ToJsString(payload).value) == Some(r.value)
  {
    ToStringThrowsIffUnprintable(payload);
    match ToJsString(payload)
    case Throw(e) => Throw(e)
    case Normal(text) =>
      match parse(text)
      case None => Throw(SyntaxError)
      case Some(json) => Normal(json)
  }

  /** The timestamp checks. As written (`strict` false) a timestamp is
      rejected when falsy, when converting it to a string throws, or when it
      is a number older than five minutes; a NaN passes. With `strict` a NaN
      is rejected as an invalid payload too. */
  function CheckTimestamp(ts: JsValue, now: int, strict: bool): Check
  {
    if !Truthy(ts) then Stop(Error(INVALID_PAYLOAD))
    else match ParseIntValue(ts)
      case Throw(_) => Stop(Error(INVALID_PAYLOAD))
      case Normal(t) =>
        if strict && t.NaN? then Stop(Error(INVALID_PAYLOAD))
        else if IsStale(t, now) then Stop(Error(TOO_OLD))
        else Pass
  }

  /** Everything the handler checks before recovering the signer. */
  function CheckRequest(body: RequestBody, parse: string -> Option<JsValue>, now: int, strict: bool): Check
  {
    if !Truthy(body.payload) then Stop(Error(NO_PAYLOAD))
    else if !Truthy(body.signature) then Stop(Error(NO_SIGNATURE))
    else match ParsePayload(body.payload, parse)
      case Throw(e) => Stop(Unhandled(Thrown(e)))
      case Normal(json) =>
        match GetField(json, "message")
        case Throw(e) => Stop(Unhandled(Thrown(e)))
        case Normal(message) =>
          if message != Str(OPEN_COMMAND) then Stop(Error(INVALID_PAYLOAD))
          else match GetField(json, "timestamp")
            case Throw(e) => Stop(Unhandled(Thrown(e)))
            case Normal(ts) => CheckTimestamp(ts, now, strict)
  }

  /** Signer recovery, the membership lookup and, on success, the door:
      the registry is asked about the recovered signer and nobody else, and
      the door opens, last, exactly when the membership is valid. */
  function Authorize(body: RequestBody, env: Environment): (d: Decision)
    ensures 1 <= |d.calls| <= 3 && d.calls[0] == VerifyMessage
    ensures env.recover(body.payload, body.signature).None? <==> d.calls == [VerifyMessage]
    ensures |d.calls| > 1 ==> && env.recover(body.payload, body.signature).Some?
                              && d.calls[1] == ReadExpiry(env.recover(body.payload, body.signature).value)
    ensures |d.calls| == 3 ==> d.calls[2] == OpenDoor
    ensures OpenDoor in d.calls <==> d.reply == MembershipReply(true)
  {
    match env.recover(body.payload, body.signature)
    case None => Decision(Error(INVALID_SIGNATURE), [VerifyMessage])
    case Some(signer) =>
      match env.expiryOf(signer)
      case None => Decision(Unhandled(RegistryCallFailed), [VerifyMessage, ReadExpiry(signer)])
      case Some(expiry) =>
        if HasValidMembership(expiry, env.clockAtLookup)
        then Decision(MembershipReply(true), [VerifyMessage, ReadExpiry(signer), OpenDoor])
        else Decision(MembershipReply(false), [VerifyMessage, ReadExpiry(signer)])
  }

  function DecideWith(body: RequestBody, env: Environment, strict: bool): Decision
  {
    match CheckRequest(body, env.parse, env.clockAtCheck, strict)
    case Stop(reply) => Decision(reply, [])
    case Pass => Authorize(body, env)
  }

  /** The number of times a decision opens the door. */
  function DoorOpenings(d: Decision): nat {
    multiset(d.calls)[OpenDoor]
  }

  /** The handler as written. The door opens exactly once when the answer
      is `{validMembership: true}` and never otherwise; signer recovery
      happens exactly when every check before it passed. */
  function Decide(body: RequestBody, env: Environment): (d: Decision)
    ensures DoorOpenings(d) == (if d.reply == MembershipReply(true) then 1 else 0)
    ensures VerifyMessage in d.calls <==> CheckRequest(body, env.parse, env.clockAtCheck, false) == Pass
  {
    DecideWith(body, env, false)
  }

  /** The handler with NaN timestamps rejected as invalid payloads. */
  function DecideStrict(body: RequestBody, env: Environment): (d: Decision)
    ensures DoorOpenings(d) == (if d.reply == MembershipReply(true) then 1 else 0)
    ensures VerifyMessage in d.calls <==> CheckRequest(body, env.parse, env.clockAtCheck, true) == Pass
  {
    DecideWith(body, env, true)
  }
}

=== FILE: door_open_properties.dfy ===
/** What the `/members/open` handler promises, stated over all inputs: the
    order of its checks, the exact freshness and membership boundaries, and
    that the door opens only on the success path. */
module DoorOpenProperties {
  import opened Optional
  import opened JsValues
  import opened ParseInt
  import opened Membership
  import opened DoorOpen

  /** Both body fields are present and the payload parses to an object whose
      `message` is exactly the open command and whose `timestamp` is `ts`. */
  predicate CarriesCommand(body: RequestBody, env: Environment, ts: JsValue) {
    && Truthy(body.payload)
    && Truthy(body.signature)
    && ParsePayload(body.payload, env.parse).Normal?
    && var json := ParsePayload(body.payload, env.parse).value;
    && json.Obj?
    && "message" in json.fields
    && json.fields["message"] == Str(OPEN_COMMAND)
    && ts == (if "timestamp" in json.fields then json.fields["timestamp"] else Undefined)
  }

  /** A timestamp the handler lets through to signer recovery at clock `now`,
      said without the handler's own comparison: it is truthy, converts to
      a string, and if it denotes a number at all, that number is at most
      five minutes before `now`. */
  ghost predicate Admitted(ts: JsValue, now: int) {
    && Truthy(ts)
    && !HoldsUnprintable(ts)
    && forall t :: ParseIntValue(ts) == Normal(Int(t)) ==> now - t <= FRESHNESS_WINDOW_MS
  }

  /** When the door opens, independently of how the handler is written: a
      well-formed command with an admitted timestamp, a recoverable signer,
      and a registry answer that covers the second clock reading. */
  ghost predicate Authorized(body: RequestBody, env: Environment) {
    exists ts ::
      && CarriesCommand(body, env, ts)
      && Admitted(ts, env.clockAtCheck)
      && env.recover(body.payload, body.signature).Some?
      && var signer := env.recover(body.payload, body.signature).value;
      && env.expiryOf(signer).Some?
      && env.expiryOf(signer).value * MS_PER_SECOND >= env.clockAtLookup
  }

  /** Once the payload carries the command, only the timestamp checks
      stand between the request and signer recovery. */
  lemma CommandReachesTimestampCheck(body: RequestBody, env: Environment, ts: JsValue, strict: bool)
    requires CarriesCommand(body, env, ts)
    ensures CheckRequest(body, env.parse, env.clockAtCheck, strict) == CheckTimestamp(ts, env.clockAtCheck, strict)
  {
    var json := ParsePayload(body.payload, env.parse).value;
    assert GetField(json, "message") == Normal(Str(OPEN_COMMAND));
    assert GetField(json, "timestamp") == Normal(ts);
  }

  /** A missing or empty payload is reported first, whatever the signature,
      and nothing is called. */
  lemma MissingPayloadFirst(body: RequestBody, env: Environment)
    requires !Truthy(body.payload)
    ensures Decide(body, env) == Decision(Error(NO_PAYLOAD), [])
  {
  }

  lemma MissingSignatureSecond(body: RequestBody, env: Environment)
    requires Truthy(body.payload) && !Truthy(body.signature)
    ensures Decide(body, env) == Decision(Error(NO_SIGNATURE), [])
  {
  }

  /** A payload whose text `JSON.parse` rejects escapes as a SyntaxError,
      and one that parses to null escapes as the TypeError of reading
      `null.message`; neither is answered with "invalid payload". */
  lemma UnparsablePayloadEscapes(body: RequestBody, env: Environment)
    requires Truthy(body.payload) && Truthy(body.signature) && ToJsString(body.payload).Normal?
    requires env.parse(ToJsString(body.payload).value) in {None, Some(Null)}
    ensures Decide(body, env) ==
      Decision(Unhandled(Thrown(if env.parse(ToJsString(body.payload).value).None? then SyntaxError else TypeError)), [])
  {
  }

  /** A payload whose string conversion throws, such as `{"toString": 1}`,
      escapes as a TypeError before any text is parsed. */
  lemma UnprintablePayloadEscapes(body: RequestBody, env: Environment)
    requires Truthy(body.payload) && Truthy(body.signature) && HoldsUnprintable(body.payload)
    ensures Decide(body, env) == Decision(Unhandled(Thrown(TypeError)), [])
  {
  }

  /** Anything but an object whose message is exactly "Open Door3" is an
      invalid payload; neither recovery nor the registry is consulted. */
  lemma WrongCommandRejected(body: RequestBody, env: Environment, json: JsValue)
    requires Truthy(body.payload) && Truthy(body.signature)
    requires ParsePayload(body.payload, env.parse) == Normal(json) && json != Null && json != Undefined
    requires !(json.Obj? && "message" in json.fields && json.fields["message"] == Str(OPEN_COMMAND))
    ensures Decide(body, env) == Decision(Error(INVALID_PAYLOAD), [])
  {
  }

  /** A falsy timestamp (absent, null, false, 0 or "") is an invalid payload. */
  lemma FalsyTimestampRejected(body: RequestBody, env: Environment, ts: JsValue)
    requires CarriesCommand(body, env, ts) && !Truthy(ts)
    ensures Decide(body, env) == Decision(Error(INVALID_PAYLOAD), [])
  {
    CommandReachesTimestampCheck(body, env, ts, false);
  }

  /** The try/catch around parseInt does reject something: a timestamp that
      is, or holds, an object with its own "toString" property. */
  lemma UnprintableTimestampRejected(body: RequestBody, env: Environment, ts: JsValue)
    requires CarriesCommand(body, env, ts) && Truthy(ts) && HoldsUnprintable(ts)
    ensures Decide(body, env) == Decision(Error(INVALID_PAYLOAD), [])
  {
    CommandReachesTimestampCheck(body, env, ts, false);
  }

  /** A timestamp more than five minutes old is rejected whatever the
      signature and the registry say, and neither is consulted. */
  lemma StaleTimestampRejected(body: RequestBody, env: Environment, ts: JsValue, t: int)
    requires CarriesCommand(body, env, ts) && Truthy(ts)
    requires ParseIntValue(ts) == Normal(Int(t))
    requires t < env.clockAtCheck - FRESHNESS_WINDOW_MS
    ensures Decide(body, env) == Decision(Error(TOO_OLD), [])
  {
    CommandReachesTimestampCheck(body, env, ts, false);
  }

  /** A timestamp exactly five minutes old, or any later one however far in
      the future, goes on to signer recovery. */
  lemma FreshTimestampProceeds(body: RequestBody, env: Environment, ts: JsValue, t: int)
    requires CarriesCommand(body, env, ts) && Truthy(ts)
    requires ParseIntValue(ts) == Normal(Int(t))
    requires t >= env.clockAtCheck - FRESHNESS_WINDOW_MS
    ensures Decide(body, env) == Authorize(body, env)
  {
    CommandReachesTimestampCheck(body, env, ts, false);
  }

  /** A truthy timestamp that parses to NaN is never rejected: not by the
      try/catch and not by the staleness comparison, at any clock. */
  lemma NaNTimestampProceeds(body: RequestBody, env: Environment, ts: JsValue)
    requires CarriesCommand(body, env, ts) && Truthy(ts)
    requires ParseIntValue(ts) == Normal(NaN)
    ensures Decide(body, env) == Authorize(body, env)
  {
    CommandReachesTimestampCheck(body, env, ts, false);
  }

  /** A signature that does not recover is reported as such; the registry
      is never asked and the door stays shut. */
  lemma InvalidSignatureStops(body: RequestBody, env: Environment)
    requires CheckRequest(body, env.parse, env.clockAtCheck, false) == Pass
    requires env.recover(body.payload, body.signature) == None
    ensures Decide(body, env) == Decision(Error(INVALID_SIGNATURE), [VerifyMessage])
  {
  }

  /** After a recovered signer, the answer is the registry's verdict on that
      signer, and the door opens exactly when it is valid. */
  lemma MembershipDecides(body: RequestBody, env: Environment, signer: Address, expiry: nat)
    requires CheckRequest(body, env.parse, env.clockAtCheck, false) == Pass
    requires env.recover(body.payload, body.signature) == Some(signer)
    requires env.expiryOf(signer) == Some(expiry)
    ensures Decide(body, env).reply == MembershipReply(expiry * MS_PER_SECOND >= env.clockAtLookup)
    ensures DoorOpenings(Decide(body, env)) == if expiry * MS_PER_SECOND >= env.clockAtLookup then 1 else 0
    ensures ReadExpiry(signer) in Decide(body, env).calls
  {
  }

  /** A rejected registry call escapes as an exception; the door stays shut. */
  lemma RegistryFailureEscapes(body: RequestBody, env: Environment, signer: Address)
    requires CheckRequest(body, env.parse, env.clockAtCheck, false) == Pass
    requires env.recover(body.payload, body.signature) == Some(signer)
    requires env.expiryOf(signer) == None
    ensures Decide(body, env) == Decision(Unhandled(RegistryCallFailed), [VerifyMessage, ReadExpiry(signer)])
  {
  }

  /** The timestamp checks let `ts` through exactly when it is Admitted. */
  lemma {:induction false} TimestampCheckIsAdmitted(ts: JsValue, now: int)
    ensures CheckTimestamp(ts, now, false) == Pass <==> Admitted(ts, now)
  {
    if Truthy(ts) && !HoldsUnprintable(ts) {
      var t := ParseIntValue(ts).value;
      if t.Int? {
        assert ParseIntValue(ts) == Normal(Int(t.value));
      }
    }
  }

  /** The checks before recovery pass exactly for a well-formed command
      with an admitted timestamp. */
  lemma {:induction false} CheckRequestPasses(body: RequestBody, env: Environment)
    ensures CheckRequest(body, env.parse, env.clockAtCheck, false) == Pass
        <==> exists ts :: CarriesCommand(body, env, ts) && Admitted(ts, env.clockAtCheck)
  {
    var now := env.clockAtCheck;
    if CheckRequest(body, env.parse, now, false) == Pass {
      assert Truthy(body.payload) && Truthy(body.signature);
      assert ParsePayload(body.payload, env.parse).Normal?;
      var json := ParsePayload(body.payload, env.parse).value;
      assert GetField(json, "message") == Normal(Str(OPEN_COMMAND));
      assert json.Obj?;
      var ts := if "timestamp" in json.fields then json.fields["timestamp"] else Undefined;
      assert CarriesCommand(body, env, ts);
      CommandReachesTimestampCheck(body, env, ts, false);
      TimestampCheckIsAdmitted(ts, now);
    }
    if ts :| CarriesCommand(body, env, ts) && Admitted(ts, now) {
      CommandReachesTimestampCheck(body, env, ts, false);
      TimestampCheckIsAdmitted(ts, now);
    }
  }

  /** The door opens exactly when the request is Authorized, and then
      exactly once. */
  lemma DoorOpensIffAuthorized(body: RequestBody, env: Environment)
    ensures DoorOpenings(Decide(body, env)) == 1 <==> Authorized(body, env)
    ensures DoorOpenings(Decide(body, env)) <= 1
  {
    CheckRequestPasses(body, env);
  }

  /** A worked example: a command stamped with the current time, signed by
      a member whose expiry is an hour away, opens the door once and answers
      `{validMembership: true}`. */
  lemma FreshMemberOpensDoor(body: RequestBody, env: Environment, now: JsInt, signer: Address)
    requires 0 < now
    requires body.payload.Str? && Truthy(body.payload) && Truthy(body.signature)
    requires env.parse(body.payload.s) == Some(Obj(map["message" := Str(OPEN_COMMAND), "timestamp" := Num(now)]))
    requires env.clockAtCheck == now && env.clockAtLookup == now
    requires env.recover(body.payload, body.signature) == Some(signer)
    requires env.expiryOf(signer) == Some(now / MS_PER_SECOND + 3600)
    ensures Decide(body, env) == Decision(MembershipReply(true), [VerifyMessage, ReadExpiry(signer), OpenDoor])
  {
    var ts := Num(now);
    assert CarriesCommand(body, env, ts);
    assert ParseIntValue(ts) == Normal(Int(now)) by {
      ParseIntOfNumber(now);
    }
    FreshTimestampProceeds(body, env, ts, now);
    var expiry := now / MS_PER_SECOND + 3600;
    assert HasValidMembership(expiry, now) by {
      assert now == (now / MS_PER_SECOND) * MS_PER_SECOND + now % MS_PER_SECOND;
    }
  }

  /** As written, a timestamp with no digits never goes stale: a payload
      stamped "soon" and signed once reaches signer recovery at every clock,
      so a captured request opens the door for as long as the membership
      lasts. */
  lemma SoonTimestampNeverStale(body: RequestBody, env: Environment, later: int)
    requires CarriesCommand(body, env, Str("soon"))
    ensures Decide(body, env.(clockAtCheck := later)) == Authorize(body, env)
  {
    var replayed := env.(clockAtCheck := later);
    assert ParseIntValue(Str("soon")) == Normal(NaN) by {
      ParseIntWordExample();
    }
    assert CarriesCommand(body, replayed, Str("soon"));
    NaNTimestampProceeds(body, replayed, Str("soon"));
    AuthorizeIgnoresCheckClock(body, env, later);
  }

  /** Signer recovery and the lookup never read the first clock reading. */
  lemma AuthorizeIgnoresCheckClock(body: RequestBody, env: Environment, later: int)
    ensures Authorize(body, env.(clockAtCheck := later)) == Authorize(body, env)
  {
  }

  /** With NaN rejected, a NaN timestamp is an invalid payload. */
  lemma StrictRejectsNaN(body: RequestBody, env: Environment, ts: JsValue)
    requires CarriesCommand(body, env, ts) && Truthy(ts)
    requires ParseIntValue(ts) == Normal(NaN)
    ensures DecideStrict(body, env) == Decision(Error(INVALID_PAYLOAD), [])
  {
    CommandReachesTimestampCheck(body, env, ts, true);
  }

  /** With NaN rejected, the door opens only for a numeric timestamp at most
      five minutes before the check, so every signed request stops working
      five minutes after the time it names. */
  lemma StrictOpensOnlyWhenFresh(body: RequestBody, env: Environment)
    requires DoorOpenings(DecideStrict(body, env)) == 1
    ensures exists ts ::
      && CarriesCommand(body, env, ts)
      && ParseIntValue(ts).Normal? && ParseIntValue(ts).value.Int?
      && env.clockAtCheck - ParseIntValue(ts).value.value <= FRESHNESS_WINDOW_MS
  {
    var now := env.clockAtCheck;
    assert CheckRequest(body, env.parse, now, true) == Pass;
    var json := ParsePayload(body.payload, env.parse).value;
    assert GetField(json, "message") == Normal(Str(OPEN_COMMAND));
    var ts := if "timestamp" in json.fields then json.fields["timestamp"] else Undefined;
    assert CarriesCommand(body, env, ts);
    CommandReachesTimestampCheck(body, env, ts, true);
  }

  /** The correction changes nothing for requests without a NaN timestamp. */
  lemma StrictAgreesWithoutNaN(body: RequestBody, env: Environment)
    requires forall ts :: CarriesCommand(body, env, ts) && Truthy(ts) ==> ParseIntValue(ts) != Normal(NaN)
    ensures DecideStrict(body, env) == Decide(body, env)
  {
    var now := env.clockAtCheck;
    if && Truthy(body.payload) && Truthy(body.signature) && ParsePayload(body.payload, env.parse).Normal?
       && GetField(ParsePayload(body.payload, env.parse).value, "message") == Normal(Str(OPEN_COMMAND)) {
      var json := ParsePayload(body.payload, env.parse).value;
      var ts := if "timestamp" in json.fields then json.fields["timestamp"] else Undefined;
      assert CarriesCommand(body, env, ts);
      CommandReachesTimestampCheck(body, env, ts, true);
      CommandReachesTimestampCheck(body, env, ts, false);
    }
  }
}

=== FILE: js_values.dfy ===
/** The JavaScript values the door handler works on, as they come out of the
    JSON body parser and `JSON.parse`, and the three abstract operations of
    the ECMAScript language it applies to them: ToBoolean (the `!x` tests),
    ordinary property access (`payloadJson.message`) and ToString (the first
    step of `parseInt`). */
module JsValues {

  /** 2^53: every integer of at most this magnitude is exactly a Number (an
      IEEE 754 double); beyond it, integers are skipped. */
  const EXACT_INTEGER_LIMIT: int := 9_007_199_254_740_992

  /** An integer-valued JSON number that a Number holds exactly. Number::
      toString prints such a value as its exact decimal digits. */
  type JsInt = n: int | -EXACT_INTEGER_LIMIT <= n <= EXACT_INTEGER_LIMIT

  /** A JavaScript value that JSON can denote, plus `undefined` for a missing
      property. `-0` is folded into `Num(0)`: the handler cannot tell them
      apart (both are falsy and both print as "0"). */
  datatype JsValue =
    | Undefined
    | Null
    | Bool(b: bool)
    | Num(n: JsInt)
    | Str(s: string)
    | Arr(items: seq<JsValue>)
    | Obj(fields: map<string, JsValue>)

  /** The exceptions the modelled operations can throw. */
  datatype JsError = SyntaxError | TypeError

  /** An ECMAScript completion: a normal result or a thrown exception. */
  datatype Completion<+T> = Normal(value: T) | Throw(error: JsError)

  /** ToBoolean: the falsy values are undefined, null, false, 0 and "";
      every array and object is truthy, even an empty one. */
  function Truthy(v: JsValue): (t: bool)
    ensures !t <==> v in {Undefined, Null, Bool(false), Num(0), Str("")}
  {
    match v
    case Undefined => false
    case Null => false
    case Bool(b) => b
    case Num(n) => n != 0
    case Str(s) => |s| > 0
    case Arr(_) => true
    case Obj(_) => true
  }

  /** `v[key]` for a key that no built-in prototype defines (such as
      "message" or "timestamp"): reading a property of null or undefined
      throws a TypeError, a missing own property reads as undefined. */
  function GetField(v: JsValue, key: string): Completion<JsValue>
  {
    match v
    case Undefined => Throw(TypeError)
    case Null => Throw(TypeError)
    case Obj(fields) => Normal(if key in fields then fields[key] else Undefined)
    case _ => Normal(Undefined)
  }

  predicate IsDecimalDigit(c: char) {
    '0' <= c <= '9'
  }

  function DigitChar(d: nat): (c: char)
    requires d < 10
    ensures IsDecimalDigit(c)
    ensures c as int - '0' as int == d
  {
    ('0' as int + d) as char
  }

  /** The decimal digits of `n`, most significant first, without leading zeros. */
  function NatDigits(n: nat): (s: string)
    ensures |s| > 0
    ensures forall i :: 0 <= i < |s| ==> IsDecimalDigit(s[i])
    ensures s[0] == '0' ==> n == 0 && s == "0"
    decreases n
  {
    if n < 10 then [DigitChar(n)] else NatDigits(n / 10) + [DigitChar(n % 10)]
  }

  /** Number::toString for an integer of magnitude at most 2^53: the
      shortest digit string that denotes the Number is then its exact
      decimal expansion. */
  function DecimalString(n: int): string
  {
    if n < 0 then "-" + NatDigits(-n) else NatDigits(n)
  }

  /** ToString. An object that JSON gave an own "toString" property holds a
      non-callable value there, and Object.prototype.valueOf returns the
      object itself, so OrdinaryToPrimitive finds no primitive and throws a
      TypeError. An array prints as Array.prototype.join with ",", where
      null and undefined elements print as the empty string. */
  function ToJsString(v: JsValue): Completion<string>
    decreases v, 1
  {
    match v
    case Undefined => Normal("undefined")
    case Null => Normal("null")
    case Bool(b) => Normal(if b then "true" else "false")
    case Num(n) => Normal(DecimalString(n))
    case Str(s) => Normal(s)
    case Arr(items) => JoinItems(items)
    case Obj(fields) => if "toString" in fields then Throw(TypeError) else Normal("[object Object]")
  }

  /** Array.prototype.join(",") over `items`, stopping at the first element
      whose conversion throws. */
  function JoinItems(items: seq<JsValue>): Completion<string>
    decreases items, 0
  {
    if |items| == 0 then Normal("")
    else
      var head := if items[0].Undefined? || items[0].Null? then Normal("") else ToJsString(items[0]);
      if head.Throw? then head
      else if |items| == 1 then head
      else
        var rest := JoinItems(items[1..]);
        if rest.Throw? then rest else Normal(head.value + "," + rest.value)
  }

  /** The values whose ToString throws, defined independently of ToJsString:
      an object with an own "toString" property, or an array holding such a
      value at any depth. */
  predicate HoldsUnprintable(v: JsValue)
    decreases v
  {
    match v
    case Obj(fields) => "toString" in fields
    case Arr(items) => exists i :: 0 <= i < |items| && HoldsUnprintable(items[i])
    case _ => false
  }

  /** ToString throws exactly on the values HoldsUnprintable describes, and
      then always a TypeError. */
  lemma {:induction false} ToStringThrowsIffUnprintable(v: JsValue)
    ensures ToJsString(v).Throw? <==> HoldsUnprintable(v)
    ensures ToJsString(v).Throw? ==> ToJsString(v).error == TypeError
    decreases v, 1
  {
    match v
    case Arr(items) =>
      JoinThrowsIffUnprintable(items);
    case _ =>
  }

  lemma {:induction false} JoinThrowsIffUnprintable(items: seq<JsValue>)
    ensures JoinItems(items).Throw? <==> exists i :: 0 <= i < |items| && HoldsUnprintable(items[i])
    ensures JoinItems(items).Throw? ==> JoinItems(items).error == TypeError
    decreases items, 0
  {
    if |items| > 0 {
      ToStringThrowsIffUnprintable(items[0]);
      if |items| > 1 {
        JoinThrowsIffUnprintable(items[1..]);
        assert forall i :: 1 <= i < |items| ==> items[i] == items[1..][i - 1];
      }
    }
  }

  /** An array with one printable element prints as that element. */
  lemma SingletonArrayPrintsAsElement(x: JsValue)
    requires !x.Undefined? && !x.Null?
    ensures ToJsString(Arr([x])) == ToJsString(x)
  {
  }
}

=== FILE: membership.dfy ===
/** `hasValidMembership`: whether a registry expiry, in whole seconds, still
    covers a clock reading in milliseconds. The registry's uint256 is read
    as an arbitrary-precision BigNumber, so `expiry.mul(1000)` cannot wrap
    and unbounded integers model it exactly. */
module Membership {

  const MS_PER_SECOND: int := 1000

  /** The clock reading `ms`, rounded up to whole seconds. */
  function CeilSeconds(ms: int): int {
    (ms + MS_PER_SECOND - 1) / MS_PER_SECOND
  }

  lemma CeilSecondsBounds(ms: int)
    ensures CeilSeconds(ms) * MS_PER_SECOND >= ms
    ensures (CeilSeconds(ms) - 1) * MS_PER_SECOND < ms
  {
  }

  /** The registry call answered `expiry` and the clock read `now`: the
      membership is rejected only when `expiry * 1000 < now`, so it is still
      valid during the whole second the expiry names, including its last
      millisecond. */
  function HasValidMembership(expiry: nat, now: int): (valid: bool)
    ensures valid <==> expiry >= CeilSeconds(now)
  {
    CeilSecondsBounds(now);
    !(expiry * MS_PER_SECOND < now)
  }

  /** The boundary is inclusive: valid at exactly `expiry * 1000`, invalid one
      millisecond later. */
  lemma ExpiryBoundary(expiry: nat)
    ensures HasValidMembership(expiry, expiry * MS_PER_SECOND)
    ensures !HasValidMembership(expiry, expiry * MS_PER_SECOND + 1)
  {
  }

  /** An address the registry never saw reads as expiry 0, which is invalid
      at every positive clock reading: not an error, just no membership. */
  lemma ZeroExpiryIsInvalid(now: int)
    requires now > 0
    ensures !HasValidMembership(0, now)
  {
  }

  /** A later expiry or an earlier clock never turns a valid membership
      invalid. */
  lemma MembershipMonotone(expiry: nat, expiry': nat, now: int, now': int)
    requires HasValidMembership(expiry, now)
    requires expiry <= expiry' && now' <= now
    ensures HasValidMembership(expiry', now')
  {
  }
}

=== FILE: optional.dfy ===
/** The outcome of a foreign collaborator the door handler consults (the
    JSON parser, signer recovery, the registry call): its result, or None
    where it fails. */
module Optional {

  datatype Option<+T> = None | Some(value: T)
}

=== FILE: parse_int.dfy ===
/** The global `parseInt(string, radix)` of ECMA-262 (section 19.2.5) with the
    radix left undefined, as the door handler calls it on the payload's
    timestamp. It never throws on a string; it can only throw while
    converting a non-string argument to a string first. */
module ParseInt {
  import opened JsValues

  /** The Number `parseInt` returns: NaN, or the integer its digits denote.
      The integer is kept exact; the handler only compares it against a
      millisecond clock value, which a double holds exactly, so rounding to
      the nearest double never changes the outcome of that comparison. */
  datatype IntOrNaN = NaN | Int(value: int)

  /** StrWhiteSpaceChar: the WhiteSpace code points (tab, vertical tab, form
      feed, the byte-order mark and every space separator of Unicode category
      Zs) and the LineTerminator code points. */
  predicate IsStrWhiteSpace(c: char) {
    || c == '\t' || c == '\U{000B}' || c == '\U{000C}' || c == '\U{FEFF}'
    || c == ' ' || c == '\U{00A0}' || c == '\U{1680}' || '\U{2000}' <= c <= '\U{200A}'
    || c == '\U{202F}' || c == '\U{205F}' || c == '\U{3000}'
    || c == '\n' || c == '\r' || c == '\U{2028}' || c == '\U{2029}'
  }

  /** A digit is neither white space nor a sign, so a printed number starts
      where parseInt starts reading. */
  lemma DigitIsNotSpaceOrSign(c: char)
    requires IsDecimalDigit(c)
    ensures !IsStrWhiteSpace(c) && c != '-' && c != '+'
  {
  }

  /** TrimString(s, start): `s` without its leading white space. */
  function TrimStart(s: string): (t: string)
    ensures |t| <= |s| && t == s[|s| - |t|..]
    ensures forall i :: 0 <= i < |s| - |t| ==> IsStrWhiteSpace(s[i])
    ensures |t| > 0 ==> !IsStrWhiteSpace(t[0])
    decreases |s|
  {
    if |s| > 0 && IsStrWhiteSpace(s[0]) then TrimStart(s[1..]) else s
  }

  /** The value of `c` as a digit of a radix up to 36 (letters of either case
      stand for 10 to 35), or 36 when `c` is not a letter or a digit. */
  function DigitValue(c: char): (d: nat)
    ensures d <= 36
    ensures IsDecimalDigit(c) <==> d < 10
  {
    if '0' <= c <= '9' then c as int - '0' as int
    else if 'a' <= c <= 'z' then c as int - 'a' as int + 10
    else if 'A' <= c <= 'Z' then c as int - 'A' as int + 10
    else 36
  }

  predicate AllDigits(s: string, radix: nat) {
    forall i {:trigger DigitValue(s[i])} :: 0 <= i < |s| ==> DigitValue(s[i]) < radix
  }

  /** The length of the longest prefix of `s` made of radix-`radix` digits. */
  function DigitRunLength(s: string, radix: nat): (n: nat)
    ensures n <= |s|
    ensures AllDigits(s[..n], radix)
    ensures n < |s| ==> DigitValue(s[n]) >= radix
    decreases |s|
  {
    if |s| > 0 && DigitValue(s[0]) < radix then 1 + DigitRunLength(s[1..], radix) else 0
  }

  /** The mathematical value of a digit string, most significant digit first. */
  function DigitsValue(ds: string, radix: nat): nat
    requires AllDigits(ds, radix)
    decreases |ds|
  {
    if |ds| == 0 then 0
    else DigitsValue(ds[..|ds| - 1], radix) * radix + DigitValue(ds[|ds| - 1])
  }

  /** parseInt on a string: skip leading white space, take an optional sign,
      switch to radix 16 after a "0x" or "0X" prefix, then read the longest
      run of digits; NaN when that run is empty. */
  function ParseIntString(s: string): IntOrNaN
  {
    ParseTrimmed(TrimStart(s))
  }

  /** parseInt after the leading white space is gone: an optional sign. */
  function ParseTrimmed(trimmed: string): IntOrNaN
  {
    if |trimmed| > 0 && trimmed[0] == '-' then Negate(ParseUnsigned(trimmed[1..]))
    else if |trimmed| > 0 && trimmed[0] == '+' then ParseUnsigned(trimmed[1..])
    else ParseUnsigned(trimmed)
  }

  function Negate(r: IntOrNaN): IntOrNaN
  {
    match r
    case NaN => NaN
    case Int(v) => Int(-v)
  }

  /** parseInt after the sign: radix 16 after a "0x" or "0X" prefix, else 10. */
  function ParseUnsigned(unsigned: string): IntOrNaN
  {
    if |unsigned| >= 2 && unsigned[0] == '0' && (unsigned[1] == 'x' || unsigned[1] == 'X')
    then ParseDigits(unsigned[2..], 16)
    else ParseDigits(unsigned, 10)
  }

  /** The longest run of digits at the start of `s`, NaN when there is none. */
  function ParseDigits(s: string, radix: nat): IntOrNaN
  {
    var end := DigitRunLength(s, radix);
    if end == 0 then NaN else Int(DigitsValue(s[..end], radix))
  }

  /** parseInt on any value: ToString first, which throws exactly on the
      values HoldsUnprintable describes; otherwise the result is a Number,
      possibly NaN, and never an exception. */
  function ParseIntValue(v: JsValue): (r: Completion<IntOrNaN>)
    ensures r.Throw? <==> HoldsUnprintable(v)
    ensures r.Throw? ==> r.error == TypeError
  {
    ToStringThrowsIffUnprintable(v);
    match ToJsString(v)
    case Throw(e) => Throw(e)
    case Normal(s) => Normal(ParseIntString(s))
  }

  /** The digits NatDigits prints denote the number they were printed from. */
  lemma {:induction false} NatDigitsValue(m: nat)
    ensures AllDigits(NatDigits(m), 10)
    ensures DigitsValue(NatDigits(m), 10) == m
    decreases m
  {
    var s := NatDigits(m);
    assert AllDigits(s, 10) by {
      forall i | 0 <= i < |s| ensures DigitValue(s[i]) < 10 {
        assert IsDecimalDigit(s[i]);
      }
    }
    if m >= 10 {
      NatDigitsValue(m / 10);
      assert s[..|s| - 1] == NatDigits(m / 10);
      assert s[|s| - 1] == DigitChar(m % 10);
    }
  }

  /** A digit run ends where the first non-digit begins. */
  lemma DigitRunStopsAtNonDigit(ds: string, t: string, radix: nat)
    requires AllDigits(ds, radix)
    requires t == [] || DigitValue(t[0]) >= radix
    ensures DigitRunLength(ds + t, radix) == |ds|
    ensures (ds + t)[..|ds|] == ds
  {
  }

  /** parseInt reads back the digits of a natural number followed by text
      that neither continues the digits nor turns "0" into a "0x" prefix. */
  lemma ParseIntOfNatDigits(m: nat, t: string)
    requires t == [] || (!IsDecimalDigit(t[0]) && !(m == 0 && (t[0] == 'x' || t[0] == 'X')))
    ensures ParseIntString(NatDigits(m) + t) == Int(m)
  {
    var ds := NatDigits(m);
    var u := ds + t;
    assert u[0] == ds[0] && IsDecimalDigit(u[0]);
    DigitIsNotSpaceOrSign(u[0]);
    assert ParseUnsigned(u) == ParseDigits(u, 10) by {
      if |u| >= 2 && u[0] == '0' {
        assert ds == "0";
        assert u[1] == t[0];
      }
    }
    assert ParseDigits(u, 10) == Int(m) by {
      NatDigitsValue(m);
      DigitRunStopsAtNonDigit(ds, t, 10);
    }
    assert TrimStart(u) == u;
    assert ParseTrimmed(u) == ParseUnsigned(u);
  }

  /** parseInt reads back a minus sign followed by the digits of a positive
      number and text that does not continue the digits. */
  lemma ParseIntOfNegative(m: nat, t: string)
    requires m > 0
    requires t == [] || !IsDecimalDigit(t[0])
    ensures ParseIntString(['-'] + (NatDigits(m) + t)) == Int(-(m as int))
  {
    var u := NatDigits(m) + t;
    assert ParseIntString(u) == Int(m) by {
      ParseIntOfNatDigits(m, t);
    }
    assert u[0] == NatDigits(m)[0] && IsDecimalDigit(u[0]);
    DigitIsNotSpaceOrSign(u[0]);
    ParseIntSign(u);
  }

  /** Round trip: parseInt reads back every integer Number::toString prints,
      also when other text follows, as long as that text does not continue
      the digits (nor turn a leading "0" into a "0x" prefix). */
  lemma ParseIntOfDecimal(n: int, t: string)
    requires t == [] || (!IsDecimalDigit(t[0]) && !(n == 0 && (t[0] == 'x' || t[0] == 'X')))
    ensures ParseIntString(DecimalString(n) + t) == Int(n)
  {
    if n >= 0 {
      assert DecimalString(n) + t == NatDigits(n) + t;
      ParseIntOfNatDigits(n, t);
    } else {
      assert DecimalString(n) + t == ['-'] + (NatDigits(-n) + t);
      ParseIntOfNegative(-n, t);
    }
  }

  lemma {:induction false} TrimStartSkipsWhiteSpace(w: string, s: string)
    requires forall i :: 0 <= i < |w| ==> IsStrWhiteSpace(w[i])
    ensures TrimStart(w + s) == TrimStart(s)
    decreases |w|
  {
    if |w| > 0 {
      assert (w + s)[0] == w[0] && IsStrWhiteSpace(w[0]);
      assert (w + s)[1..] == w[1..] + s;
      TrimStartSkipsWhiteSpace(w[1..], s);
      assert TrimStart(w + s) == TrimStart((w + s)[1..]);
    } else {
      assert w + s == s;
    }
  }

  /** Leading white space never changes what parseInt reads. */
  lemma ParseIntSkipsLeadingWhiteSpace(w: string, s: string)
    requires forall i :: 0 <= i < |w| ==> IsStrWhiteSpace(w[i])
    ensures ParseIntString(w + s) == ParseIntString(s)
  {
    TrimStartSkipsWhiteSpace(w, s);
  }

  /** A string without a single decimal digit is NaN (a "0x" prefix needs
      a "0"): parseInt never rejects text by throwing, it answers NaN. */
  lemma NoDigitIsNaN(s: string)
    requires forall i :: 0 <= i < |s| ==> !IsDecimalDigit(s[i])
    ensures ParseIntString(s) == NaN
  {
    var trimmed := TrimStart(s);
    var unsigned := if |trimmed| > 0 && (trimmed[0] == '-' || trimmed[0] == '+') then trimmed[1..] else trimmed;
    if |unsigned| > 0 {
      assert unsigned[0] in s;
    }
  }

  /** The number a JSON timestamp of type number yields. */
  lemma ParseIntOfNumber(n: JsInt)
    ensures ParseIntValue(Num(n)) == Normal(Int(n))
  {
    var s := DecimalString(n);
    assert ToJsString(Num(n)) == Normal(s);
    assert ParseIntValue(Num(n)) == Normal(ParseIntString(s));
    assert ParseIntString(s) == Int(n) by {
      ParseIntOfDecimal(n, []);
      assert s + [] == s;
    }
  }

  /** A word parses to NaN, not an exception. */
  lemma ParseIntWordExample()
    ensures ParseIntValue(Str("soon")) == Normal(NaN)
  {
    assert ToJsString(Str("soon")) == Normal("soon");
    NoDigitIsNaN("soon");
  }

  /** A "0x" or "0X" prefix with no hexadecimal digit after it is NaN: the
      prefix is consumed, so the "0" is not read as a decimal zero. */
  lemma ParseIntBarePrefix(x: char, t: string)
    requires x == 'x' || x == 'X'
    requires t == [] || DigitValue(t[0]) >= 16
    ensures ParseIntString(['0', x] + t) == NaN
  {
    var unsigned := ['0', x] + t;
    assert TrimStart(unsigned) == unsigned by {
      assert unsigned[0] == '0';
    }
    assert ParseUnsigned(unsigned) == ParseDigits(t, 16) by {
      DropPrefix(['0', x], t);
    }
    assert DigitRunLength(t, 16) == 0;
  }

  /** A "0x" or "0X" prefix switches parseInt to radix 16, so a timestamp
      may be written in hexadecimal. */
  lemma ParseIntHexPrefix(x: char, ds: string, t: string)
    requires x == 'x' || x == 'X'
    requires ds != [] && AllDigits(ds, 16)
    requires t == [] || DigitValue(t[0]) >= 16
    ensures ParseIntString(['0', x] + ds + t) == Int(DigitsValue(ds, 16))
  {
    var unsigned := ['0', x] + ds + t;
    assert TrimStart(unsigned) == unsigned by {
      assert unsigned[0] == '0';
    }
    assert ParseUnsigned(unsigned) == ParseDigits(ds + t, 16) by {
      assert unsigned == ['0', x] + (ds + t);
      DropPrefix(['0', x], ds + t);
    }
    DigitRunStopsAtNonDigit(ds, t, 16);
  }

  /** A leading "-" negates what follows and a leading "+" changes nothing,
      when what follows starts with neither white space nor a sign. */
  lemma ParseIntSign(u: string)
    requires u != [] && !IsStrWhiteSpace(u[0]) && u[0] != '-' && u[0] != '+'
    ensures ParseIntString(['-'] + u) == Negate(ParseIntString(u))
    ensures ParseIntString(['+'] + u) == ParseIntString(u)
  {
    DropPrefix(['-'], u);
    DropPrefix(['+'], u);
  }

  lemma DropPrefix(p: string, rest: string)
    ensures (p + rest)[|p|..] == rest
  {
  }
}
